=== FILE: README.md ===
# Knowledge-base ingest scripts, modelled in Dafny

Two Python scripts load product documents into a MindsDB knowledge base
named `prd_knowledge_base`.

- The plain script, `rag_system/ingest_files.py`, checks that the server answers.
  It then goes through the `*.txt` and `*.md` files of the PRD directory and the `*.json` files
  of the design directory. Every file that reads as text is sent as one `INSERT` statement; a
  file that does not is counted as failed and not sent. The script counts successes and failures.
- The smart script, `rag_system/ingest_files_smart.py`, keeps a tracking map from file key
  to the MD5 digest of the content it last ingested. It skips files whose digest is unchanged.
  It records the digest only when `execute_sql` reports success for the insert (HTTP status
  200 with a JSON body, whatever the body says), reports ingested, skipped and
  failed counts and the number of chunks created, and exits with status 1 when any file failed.
  `--force` starts it from an empty map.

Both scripts build the statement by doubling every single quote of the file's text
(`escape_sql_string`) and placing the result between quotes. In standard SQL, where only a
doubled quote is special inside a literal, that literal reads back as the file's text.

The model is split into modules:

- `SqlEscape` (`sql_escape.dfy`): the quote-doubling escape. It comes with its inverse
  (`Collapse`) and a characterisation of its outputs: well-paired texts, whose quote runs are
  all even.
- `SqlQuery` (`sql_query.dfy`): the `INSERT` statement text, and a reader for standard SQL
  string literals (two quotes inside a literal stand for one). The reader is used to prove
  that, in standard SQL, the statement's only literal is the file's text, exactly.
- `Discovery` (`discovery.dfy`): glob by suffix, Python's string order, insertion sort, and
  the visit order both scripts share: sorted `.txt`, then sorted `.md`, then sorted `.json`.
- `Inputs` (`inputs.dfy`): what the outside world shows about one file. This is its bytes,
  the outcome of reading it as text, and the server's reply.
- `SmartIngest` (`smart_ingest.dfy`): one call of the smart `ingest_file`, as a pure
  function from the tracking map to an outcome and the next tracking map.
- `SmartRun` (`smart_run.dfy`): the smart `main`. It covers the start map (`--force`), the
  fold over the files, the statistics, the saved map and the exit status.
- `PlainRun` (`plain_run.dfy`): the plain script's `ingest_file` and `main`. It also shows
  that a forced smart run ingests exactly the files the plain script succeeds on.
- `Wrappers` (`wrappers.dfy`): `Option`.

The MD5 digest is a parameter `digest: seq<Byte> -> Hash`, so every property holds for any
digest function. The stronger change-detection claim, that a changed file is never skipped,
depends on the digest being collision-free. It is stated as "a file whose digest differs is
not skipped".

## Model

| member | source | states |
|---|---|---|
| SqlEscape.Escape | rag_system/ingest_files_smart.py:61-63 | `escape_sql_string` doubles every quote and keeps every other character, so the escape never shortens a text and at most doubles it. Its exact length, quote count and inverse are stated by `EscapeLength`, `EscapeQuoteCount` and `CollapseEscape` |
| SqlEscape.EscapeNoQuote | rag_system/ingest_files_smart.py:61-63 | a text without quotes is its own escape |
| SqlEscape.EscapeLength | rag_system/ingest_files_smart.py:61-63 | the escaped text is longer than the original by exactly one character per single quote |
| SqlEscape.EscapeQuoteCount | rag_system/ingest_files_smart.py:61-63 | the escaped text holds exactly twice as many single quotes as the original |
| SqlEscape.EscapeKeepsOthers | rag_system/ingest_files_smart.py:61-63 | every character other than the single quote is kept, unchanged and in its original order |
| SqlEscape.EscapeConcat | rag_system/ingest_files_smart.py:61-63 | escaping works character by character: escaping a concatenation concatenates the escapes |
| SqlEscape.CollapseEscape | rag_system/ingest_files.py:36-38 | round trip: collapsing each doubled quote of the escaped text gives back the original text, so no two texts share an escape |
| SqlEscape.EscapeCollapse | rag_system/ingest_files_smart.py:61-63 | every well-paired text (each quote belongs to a `''` pair) is the escape of its collapse |
| SqlEscape.EscapeUnique | rag_system/ingest_files_smart.py:61-63 | the escape of `s` is the only well-paired text that collapses to `s` |
| SqlEscape.EscapeWellPaired | rag_system/ingest_files_smart.py:61-63 | every output of the escape is well paired |
| SqlEscape.EscapeEvenRuns | rag_system/ingest_files_smart.py:61-63 | no maximal run of quotes in the escaped text has odd length, so in standard SQL none of them can end a literal |
| SqlQuery.InsertQuery | rag_system/ingest_files_smart.py:84-87 | the INSERT statement grows the content by one character per quote plus the fixed head, the two quotes and the tail. That its only literal is the content is stated by `InsertQueryCarriesContent` |
| SqlQuery.ReadEscaped | rag_system/ingest_files_smart.py:82-86 | a literal reader fed the escaped text and then a closing quote returns the original text and stops right after that closing quote |
| SqlQuery.FirstLiteralSkips | rag_system/ingest_files.py:51-53 | quote-free text in front of a statement does not change its first literal |
| SqlQuery.HeadHasNoQuote | rag_system/ingest_files.py:51-53 | the statement text before the content literal contains no quote |
| SqlQuery.QuotedEscapeIsFirstLiteral | rag_system/ingest_files_smart.py:84-87 | after any quote-free head, the quoted escape of a text reads back as exactly that text, followed by the given tail |
| SqlQuery.InsertQueryCarriesContent | rag_system/ingest_files_smart.py:84-87 | in standard SQL, the first literal of the INSERT statement is the file content exactly, whatever quotes it contains, and no second literal follows it |
| SqlQuery.ReadLiteralInverse | rag_system/ingest_files.py:47-53 | the literal reader inverts the escape: any text it reads as a value and a rest is the escape of that value, a closing quote, and that rest |
| SqlQuery.UnescapedLiteralReadsBack | rag_system/ingest_files.py:47-53 | a content placed between quotes without escaping reads back as itself exactly when it holds no quote, so the escape is needed for every content with a quote |
| Discovery.PathKey | rag_system/ingest_files_smart.py:67 | the file key `str(file_path)` ends with the file's name. The directory in front is written as pathlib writes it, as stated by `PathKeySpecialDirs` and `PathKeyOrdinaryDir` |
| Discovery.PathKeySpecialDirs | rag_system/ingest_files_smart.py:140-142 | a file of the current directory `.` has its bare name as key, and a file of the root `/` has one separator in front |
| Discovery.PathKeyOrdinaryDir | rag_system/ingest_files_smart.py:140-142 | for every other directory not ending in a separator, the key is the directory, one separator, and the name |
| Discovery.NameLeTotal | rag_system/ingest_files_smart.py:142 | Python's string order compares any two names |
| Discovery.NameLeTransitive | rag_system/ingest_files_smart.py:142 | Python's string order is transitive |
| Discovery.Matching | rag_system/ingest_files_smart.py:142 | the glob `*<suffix>` returns exactly the listed names ending with the suffix, without repeating any |
| Discovery.Insert | rag_system/ingest_files_smart.py:142 | inserting a name into a sorted list keeps it sorted and adds exactly that name |
| Discovery.Sort | rag_system/ingest_files_smart.py:142 | `sorted` returns a sorted permutation of its input |
| Discovery.Group | rag_system/ingest_files.py:111-113 | one glob of a directory: sorted, and it holds exactly the matching names when the directory exists and nothing otherwise |
| Discovery.VisitOrder | rag_system/ingest_files_smart.py:140-160 | the files of a run come only from the two directories. Their order and selection are stated by `VisitOrderIsOrdered` and `VisitOrderSelects` |
| Discovery.VisitOrderIsOrdered | rag_system/ingest_files_smart.py:140-160 | files are visited as sorted `.txt` names, then sorted `.md` names (PRD directory), then sorted `.json` names (design directory) |
| Discovery.VisitOrderSelects | rag_system/ingest_files.py:111-129 | a file is visited exactly when its directory exists, it is listed there, and it matches that directory's globs |
| Discovery.VisitKeysDistinct | rag_system/ingest_files_smart.py:140-160 | when no directory lists a name twice, no file key `str(file_path)` is visited twice |
| SmartIngest.IngestFile | rag_system/ingest_files_smart.py:65-103 | a file is skipped exactly when the map records its current digest, and a skip changes nothing. It is ingested exactly when not skipped, readable and `execute_sql` reports success; then the map records the digest and the chunks are after minus before. A failure keeps the map and reports 0 chunks. The INSERT statement is sent exactly when the file is not skipped and readable, and its literal is the content |
| SmartIngest.IngestFileTouchesOwnKey | rag_system/ingest_files_smart.py:97 | a call changes the tracking map at its own key only |
| SmartIngest.IngestFileLocal | rag_system/ingest_files_smart.py:67-72 | a call's outcome depends on the tracking map only through the entry for its own key |
| SmartIngest.SecondCallSkips | rag_system/ingest_files_smart.py:70-72 | idempotence: after an ingest or a skip, the same file with the same bytes is skipped |
| SmartIngest.ChangedFileNotSkipped | rag_system/ingest_files_smart.py:70-72 | a file with no record, or whose digest differs from the recorded one, is not skipped |
| SmartRun.Process | rag_system/ingest_files_smart.py:142-172 | one outcome per visited file, and the map is unchanged at every key the pass does not visit |
| SmartRun.Tally | rag_system/ingest_files_smart.py:145-154 | each outcome raises exactly the counter of its status by one; an ingested outcome raises the chunk total by its own chunks and any other outcome leaves it unchanged |
| SmartRun.Summarize | rag_system/ingest_files_smart.py:136-172 | counting the outcomes raises the three counters by exactly one per outcome together, and never lowers the failure counter. Which counter rises is stated by `SummarizeCounts` |
| SmartRun.SummarizeCounts | rag_system/ingest_files_smart.py:136-172 | the loop's counters are the numbers of outcomes of each status, and its chunk total is the sum over the ingested outcomes |
| SmartRun.CountsCover | rag_system/ingest_files_smart.py:145-154 | the three status counts add up to the number of outcomes |
| SmartRun.RunCounts | rag_system/ingest_files_smart.py:136-172 | one outcome per file in visit order; ingested + skipped + failed equals the number of files; the chunk total sums the ingested files' chunks |
| SmartRun.ExitCode | rag_system/ingest_files_smart.py:199 | the exit status is 0 or 1, and 0 exactly when no file failed |
| SmartRun.RunExitCode | rag_system/ingest_files_smart.py:199 | the exit status is 0 exactly when the server answered and no file failed |
| SmartRun.UnreachableServerStops | rag_system/ingest_files_smart.py:126-134 | when the status check fails, no file is visited, no map is saved, and the exit status is 1 |
| SmartRun.StartTracking | rag_system/ingest_files_smart.py:120 | a run starts from the empty map with `--force` and from the loaded map otherwise, so it never starts with a key that was not loaded |
| SmartRun.Run | rag_system/ingest_files_smart.py:105-199 | a map is saved exactly when the server answered, the exit status is 0 or 1, and a run that goes ahead has one outcome per file in visit order. Counts, skips and the saved map are stated by `RunCounts`, `RerunSkipsExactly` and `RunSavedKeys` |
| SmartRun.FirstVisitSeesStart | rag_system/ingest_files_smart.py:142-143 | a file whose key was not visited earlier in the pass gets the outcome it would get against the start map |
| SmartRun.FinalEntryOfKey | rag_system/ingest_files_smart.py:160-175 | for a key visited once, the saved map holds what that key's call left |
| SmartRun.ProcessDomain | rag_system/ingest_files_smart.py:97 | a pass adds exactly the keys of the files it ingested and removes none |
| SmartRun.SecondPassSkipsExactly | rag_system/ingest_files_smart.py:70-72 | a second pass over the same files with unchanged bytes, from the map the first pass left, skips exactly the files the first pass did not fail on |
| SmartRun.ForceSkipsNoFirstVisit | rag_system/ingest_files_smart.py:120 | in force mode no file is skipped on its first visit |
| SmartRun.ForceSkipsNothing | rag_system/ingest_files_smart.py:120 | in force mode, with no name listed twice, no file is skipped |
| SmartRun.RerunSkipsExactly | rag_system/ingest_files_smart.py:120-175 | a normal rerun on the saved map, with unchanged bytes, skips exactly the files the first run did not fail on |
| SmartRun.RunSavedKeys | rag_system/ingest_files_smart.py:174-175 | the saved map holds the loaded keys (none in force mode) plus the keys of the ingested files, and nothing else |
| SmartRun.RunSavedEntry | rag_system/ingest_files_smart.py:91-98 | the saved map records the digest of every ingested file's bytes and keeps the start entry of every file that was not ingested |
| PlainRun.IngestOnce | rag_system/ingest_files.py:41-60 | success exactly when the file reads as text and `execute_sql` reports success; a statement is sent exactly when the file reads; a failure reports the read error or the server's error |
| PlainRun.IngestOnceSendsContent | rag_system/ingest_files.py:47-56 | the statement sent carries the file's text as its only literal |
| PlainRun.IngestAll | rag_system/ingest_files.py:106-137 | one attempt per file in order; the success counter counts the successful attempts; the two counters add up to the number of files |
| PlainRun.RunPlain | rag_system/ingest_files.py:95-148 | an unreachable server gives exit status 1 and no attempt. Otherwise every file in visit order is attempted once and the exit status is 0, whatever failed |
| PlainRun.UntrackedStepMatchesPlain | rag_system/ingest_files.py:41-60 | for a file the map does not know, the smart call ingests exactly when the plain call succeeds, and both send the same statement |
| PlainRun.ForceRunMatchesPlain | rag_system/ingest_files.py:113-137 | a forced smart run ingests exactly the files the plain script succeeds on, and fails on the rest |

## Left out

- The HTTP client (`execute_sql` and the status check) is not modelled. The server's answer
  to each statement is an input (`Reply`), and the status check is the `connected` flag.
- `get_chunk_count` is not modelled: the counts before and after an insert are opaque integers
  in each file's probe. A failed count query returns 0 in the source; that is one such input.
  The `SELECT COUNT(*)` statements it sends (before the read of every file that is not skipped,
  and again after an accepted insert) are not part of the model's record of statements sent,
  which holds the INSERT statement only.
- MD5 (`file_hash`) is a function parameter. `file_hash` runs outside the `try` of the smart
  `ingest_file`, so an unreadable file aborts the whole run there. That abort is not modelled:
  the bytes are always available.
- Loading and saving the tracking file as JSON is not modelled. The loaded map is an input,
  and the saved map is part of the result.
- Argument parsing and all printing are not modelled, including the final knowledge-base
  total, which is only printed.
- `Path.glob` is modelled as "listed name ends with the suffix". As in pathlib, names that
  start with a dot match too. Directories whose names match and case rules of other platforms
  are left out. Directory paths are taken as `Path(...)` prints them: without a trailing
  separator, except the root `/`, and `.` for the current directory.
- Backslash escapes of the server's SQL dialect are not modelled. The literal reader follows
  standard SQL, where only a doubled quote is special inside a literal. The escape leaves
  backslashes alone, so on a dialect where a backslash escapes the next character, a content
  with a backslash before a quote (`\'x` is sent as `\''x`) ends the literal early, and a
  content ending in a backslash leaves it unterminated. The properties about the statement's
  literal hold for standard SQL only.
- `Accepted` stands for `execute_sql` returning success: HTTP status 200 with a JSON body,
  whatever that body reports. The scripts never read the body, so a statement the server
  refuses inside a 200 response is counted as ingested, its digest is recorded, and later runs
  skip the file. The model follows the scripts here and does not promise that an ingested
  file's content reached the knowledge base.
- `rag_system/reset_and_reingest.py` is not part of this model. Over HTTP it drops and
  recreates the knowledge base, its embedding model and the agent, and it deletes the tracking
  file `.ingested_files.json` beside the script. The smart script reads that name relative to
  the working directory, so when it runs from the script's directory its next run starts from an
  empty map, as with `--force`.
- Chunking, text normalisation and any server-side queueing happen inside the server and are
  not part of this model.
- SmartIngest.ChangedFileNotSkipped: states change detection on digests, not on bytes,
  because the digest function is a parameter and may collide.
- SmartRun.ForceSkipsNothing: also requires that no directory lists a name twice, which a
  file system guarantees.
- SmartRun.RerunSkipsExactly: also requires that no directory lists a name twice, which a
  file system guarantees.
- SmartRun.RunSavedEntry: also requires that no directory lists a name twice, which a
  file system guarantees.
- PlainRun.ForceRunMatchesPlain: also requires that no directory lists a name twice, which a
  file system guarantees.

=== FILE: discovery.dfy ===
/**
 The order in which both ingest scripts visit files: the `*.txt` names of the
 PRD directory in sorted order, then its `*.md` names in sorted order, then the
 `*.json` names of the design directory in sorted order. A directory that does
 not exist contributes nothing. Names compare as Python compares strings: code
 point by code point, a proper prefix first.
 */
module Discovery {

  /** A directory the scripts glob: its normalised path, whether it exists, and its entry names. */
  datatype Directory = Directory(path: string, present: bool, names: seq<string>)

  /** One file to visit: its directory path and its name in that directory. */
  datatype Entry = Entry(dir: string, name: string)

  const TextSuffix: string := ".txt"
  const MarkdownSuffix: string := ".md"
  const JsonSuffix: string := ".json"

  /** What `str(dir / name)` puts in front of the name: nothing for the current directory
      `.` (pathlib drops it when joining), the directory itself when it already ends with a
      separator (the root `/`), and the directory and one separator otherwise. */
  function DirPrefix(dir: string): string
  {
    if dir == "." then []
    else if dir != [] && dir[|dir| - 1] == '/' then dir
    else dir + "/"
  }

  /** The file key the scripts use, `str(file_path)` for a path yielded by `dir.glob(...)`. */
  function PathKey(e: Entry): (r: string)
    ensures |e.name| <= |r| && r[|r| - |e.name|..] == e.name
  {
    var r := DirPrefix(e.dir) + e.name;
    assert r[|DirPrefix(e.dir)|..] == e.name;
    r
  }

  /** The keys of files in the current directory and in the root, as pathlib writes them. */
  lemma PathKeySpecialDirs(name: string)
    ensures PathKey(Entry(".", name)) == name
    ensures PathKey(Entry("/", name)) == "/" + name
  {
    assert DirPrefix(".") == [];
    assert DirPrefix("/") == "/";
  }

  /** The key of a file in any other directory is the directory, one separator, and the name. */
  lemma PathKeyOrdinaryDir(dir: string, name: string)
    requires dir != "." && dir != [] && dir[|dir| - 1] != '/'
    ensures PathKey(Entry(dir, name)) == dir + "/" + name
  {
  }

  /** `name` matches the glob `*<suffix>`. */
  predicate EndsWith(name: string, suffix: string)
  {
    |suffix| <= |name| && name[|name| - |suffix|..] == suffix
  }

  /** No element occurs twice. */
  predicate NoDuplicates<T(==)>(s: seq<T>)
  {
    forall i, j | 0 <= i < j < |s| :: s[i] != s[j]
  }

  /** Python's string order: code point by code point, a proper prefix first. */
  predicate NameLe(a: string, b: string)
    decreases |a|
  {
    if a == [] then true
    else if b == [] then false
    else if a[0] != b[0] then a[0] < b[0]
    else NameLe(a[1..], b[1..])
  }

  /** Every element is at most every later element. */
  predicate Sorted(s: seq<string>)
  {
    forall i, j | 0 <= i < j < |s| :: NameLe(s[i], s[j])
  }

  /** Any two names are comparable. */
  lemma {:induction false} NameLeTotal(a: string, b: string)
    ensures NameLe(a, b) || NameLe(b, a)
    decreases |a|
  {
    if a != [] && b != [] && a[0] == b[0] {
      NameLeTotal(a[1..], b[1..]);
    }
  }

  /** The name order is transitive. */
  lemma {:induction false} NameLeTransitive(a: string, b: string, c: string)
    requires NameLe(a, b) && NameLe(b, c)
    ensures NameLe(a, c)
    decreases |a|
  {
    if a != [] && b != [] && c != [] && a[0] == b[0] && b[0] == c[0] {
      NameLeTransitive(a[1..], b[1..], c[1..]);
    }
  }

  /** The names the glob `*<suffix>` returns, in listing order. */
  function Matching(names: seq<string>, suffix: string): (r: seq<string>)
    ensures forall n :: n in r <==> n in names && EndsWith(n, suffix)
    ensures NoDuplicates(names) ==> NoDuplicates(r)
  {
    if names == [] then []
    else
      var rest := Matching(names[1..], suffix);
      if EndsWith(names[0], suffix) then
        assert NoDuplicates(names) ==> names[0] !in names[1..];
        [names[0]] + rest
      else rest
  }

  /** A sequence stays sorted under a new head that is at most every element. */
  lemma SortedCons(h: string, s: seq<string>)
    requires Sorted(s)
    requires forall j | 0 <= j < |s| :: NameLe(h, s[j])
    ensures Sorted([h] + s)
  {
    var r := [h] + s;
    forall i, j | 0 <= i < j < |r|
      ensures NameLe(r[i], r[j])
    {
      assert r[j] == s[j - 1];
      if i > 0 {
        assert r[i] == s[i - 1];
      }
    }
  }

  /** A sequence stays free of duplicates under a new head that it does not contain. */
  lemma NoDuplicatesCons<T>(h: T, s: seq<T>)
    requires NoDuplicates(s) && h !in s
    ensures NoDuplicates([h] + s)
  {
    var r := [h] + s;
    forall i, j | 0 <= i < j < |r|
      ensures r[i] != r[j]
    {
      assert r[j] == s[j - 1];
      if i > 0 {
        assert r[i] == s[i - 1];
      }
    }
  }

  /** The tail of a sorted sequence is sorted and free of duplicates if the whole is. */
  lemma SortedTail(s: seq<string>)
    requires Sorted(s) && s != []
    ensures Sorted(s[1..])
    ensures NoDuplicates(s) ==> NoDuplicates(s[1..]) && s[0] !in s[1..]
  {
    var t := s[1..];
    forall i, j | 0 <= i < j < |t|
      ensures NameLe(t[i], t[j])
    {
      assert t[i] == s[i + 1] && t[j] == s[j + 1];
    }
    if NoDuplicates(s) {
      forall i, j | 0 <= i < j < |t|
        ensures t[i] != t[j]
      {
        assert t[i] == s[i + 1] && t[j] == s[j + 1];
      }
      forall j | 0 <= j < |t|
        ensures t[j] != s[0]
      {
        assert t[j] == s[j + 1];
      }
    }
  }

  /** Inserting in front of the first element keeps the sequence sorted. */
  lemma InsertInFront(x: string, s: seq<string>)
    requires Sorted(s) && s != [] && NameLe(x, s[0])
    ensures Sorted([x] + s)
    ensures NoDuplicates(s) && x !in s ==> NoDuplicates([x] + s)
  {
    forall j | 0 <= j < |s|
      ensures NameLe(x, s[j])
    {
      if j > 0 {
        NameLeTransitive(x, s[0], s[j]);
      }
    }
    SortedCons(x, s);
    if NoDuplicates(s) && x !in s {
      NoDuplicatesCons(x, s);
    }
  }

  /** Inserting behind the first element keeps the sequence sorted. */
  lemma InsertBehind(x: string, s: seq<string>, rest: seq<string>)
    requires Sorted(s) && s != [] && !NameLe(x, s[0])
    requires Sorted(rest) && multiset(rest) == multiset(s[1..]) + multiset{x}
    requires NoDuplicates(s[1..]) && x !in s[1..] ==> NoDuplicates(rest)
    ensures Sorted([s[0]] + rest)
    ensures multiset([s[0]] + rest) == multiset(s) + multiset{x}
    ensures NoDuplicates(s) && x !in s ==> NoDuplicates([s[0]] + rest)
  {
    NameLeTotal(x, s[0]);
    assert s == [s[0]] + s[1..];
    forall j | 0 <= j < |rest|
      ensures NameLe(s[0], rest[j])
    {
      assert rest[j] in multiset(rest);
      if rest[j] != x {
        var k :| 0 <= k < |s[1..]| && s[1..][k] == rest[j];
        assert s[k + 1] == rest[j];
      }
    }
    SortedCons(s[0], rest);
    SortedTail(s);
    if NoDuplicates(s) && x !in s {
      assert s[0] !in multiset(rest);
      NoDuplicatesCons(s[0], rest);
    }
  }

  /** Inserts `x` into a sorted sequence. */
  function Insert(x: string, s: seq<string>): (r: seq<string>)
    requires Sorted(s)
    ensures Sorted(r)
    ensures multiset(r) == multiset(s) + multiset{x}
    ensures NoDuplicates(s) && x !in s ==> NoDuplicates(r)
  {
    if s == [] then [x]
    else if NameLe(x, s[0]) then
      InsertInFront(x, s);
      [x] + s
    else
      SortedTail(s);
      var rest := Insert(x, s[1..]);
      InsertBehind(x, s, rest);
      [s[0]] + rest
  }

  /** `sorted(...)`: the names in ascending order. */
  function Sort(names: seq<string>): (r: seq<string>)
    ensures Sorted(r)
    ensures multiset(r) == multiset(names)
    ensures NoDuplicates(names) ==> NoDuplicates(r)
  {
    if names == [] then []
    else
      var rest := Sort(names[1..]);
      assert names == [names[0]] + names[1..];
      assert NoDuplicates(names) ==> names[0] !in multiset(names[1..]);
      Insert(names[0], rest)
  }

  /** `sorted(d.glob("*<suffix>"))`, or nothing when the directory does not exist. */
  function Group(d: Directory, suffix: string): (r: seq<string>)
    ensures Sorted(r)
    ensures forall n :: n in r <==> d.present && n in d.names && EndsWith(n, suffix)
    ensures NoDuplicates(d.names) ==> NoDuplicates(r)
  {
    if !d.present then []
    else
      var m := Matching(d.names, suffix);
      var r := Sort(m);
      assert forall n :: n in r <==> n in multiset(m);
      r
  }

  /** Pairs each name with its directory. */
  function Entries(dir: string, names: seq<string>): (r: seq<Entry>)
    ensures |r| == |names|
    ensures forall i | 0 <= i < |r| :: r[i] == Entry(dir, names[i])
  {
    if names == [] then [] else [Entry(dir, names[0])] + Entries(dir, names[1..])
  }

  /** Position of a name's group in the visit order: `.txt`, then `.md`, then the rest. */
  function Rank(name: string): nat
  {
    if EndsWith(name, TextSuffix) then 0 else if EndsWith(name, MarkdownSuffix) then 1 else 2
  }

  /** `a` may be visited before `b`: an earlier group, or the same group and a smaller name. */
  predicate VisitsBefore(a: Entry, b: Entry)
  {
    Rank(a.name) < Rank(b.name) || (Rank(a.name) == Rank(b.name) && NameLe(a.name, b.name))
  }

  /** `e` is one of the files the scripts pick up. */
  predicate Selected(prds: Directory, designs: Directory, e: Entry)
  {
    || (prds.present && e.dir == prds.path && e.name in prds.names
        && (EndsWith(e.name, TextSuffix) || EndsWith(e.name, MarkdownSuffix)))
    || (designs.present && e.dir == designs.path && e.name in designs.names
        && EndsWith(e.name, JsonSuffix))
  }

  /** The files both ingest scripts visit, in visiting order. */
  function VisitOrder(prds: Directory, designs: Directory): (r: seq<Entry>)
    ensures forall e | e in r :: e.dir == prds.path || e.dir == designs.path
  {
    Entries(prds.path, Group(prds, TextSuffix))
      + Entries(prds.path, Group(prds, MarkdownSuffix))
      + Entries(designs.path, Group(designs, JsonSuffix))
  }

  /** Every entry may be visited before every later entry. */
  predicate InVisitOrder(s: seq<Entry>)
  {
    forall i, j | 0 <= i < j < |s| :: VisitsBefore(s[i], s[j])
  }

  /** The file keys of a sequence of entries. */
  function Keys(es: seq<Entry>): (r: seq<string>)
    ensures |r| == |es|
    ensures forall i | 0 <= i < |es| :: r[i] == PathKey(es[i])
  {
    if es == [] then [] else [PathKey(es[0])] + Keys(es[1..])
  }

  /** A name ending with a suffix ends with the suffix's last character. */
  lemma EndsWithLast(name: string, suffix: string)
    requires EndsWith(name, suffix) && suffix != []
    ensures name != [] && name[|name| - 1] == suffix[|suffix| - 1]
  {
    assert name[|name| - |suffix|..][|suffix| - 1] == name[|name| - 1];
  }

  /** No name matches two of the three globs. */
  lemma SuffixesExclusive(name: string)
    ensures EndsWith(name, MarkdownSuffix) ==> !EndsWith(name, TextSuffix)
    ensures EndsWith(name, JsonSuffix) ==> !EndsWith(name, TextSuffix) && !EndsWith(name, MarkdownSuffix)
  {
    if EndsWith(name, TextSuffix) {
      EndsWithLast(name, TextSuffix);
    }
    if EndsWith(name, MarkdownSuffix) {
      EndsWithLast(name, MarkdownSuffix);
    }
    if EndsWith(name, JsonSuffix) {
      EndsWithLast(name, JsonSuffix);
    }
  }

  /** The entries of one sorted group, all of the same rank, are in visit order. */
  lemma GroupInVisitOrder(dir: string, names: seq<string>, rank: nat)
    requires Sorted(names)
    requires forall n | n in names :: Rank(n) == rank
    ensures InVisitOrder(Entries(dir, names))
  {
    var es := Entries(dir, names);
    forall i, j | 0 <= i < j < |es|
      ensures VisitsBefore(es[i], es[j])
    {
      assert es[i].name == names[i] && es[j].name == names[j];
    }
  }

  /** Two runs in visit order, the first of strictly lower rank, concatenate in visit order. */
  lemma ConcatInVisitOrder(a: seq<Entry>, b: seq<Entry>)
    requires InVisitOrder(a) && InVisitOrder(b)
    requires forall i, j | 0 <= i < |a| && 0 <= j < |b| :: Rank(a[i].name) < Rank(b[j].name)
    ensures InVisitOrder(a + b)
  {
    var r := a + b;
    forall i, j | 0 <= i < j < |r|
      ensures VisitsBefore(r[i], r[j])
    {
      if j < |a| {
        assert r[i] == a[i] && r[j] == a[j];
      } else if i >= |a| {
        assert r[i] == b[i - |a|] && r[j] == b[j - |a|];
      } else {
        assert r[i] == a[i] && r[j] == b[j - |a|];
      }
    }
  }

  /** The entries of a group are in visit order and all have the given rank. */
  lemma GroupEntries(dir: string, d: Directory, suffix: string, rank: nat)
    requires forall n | d.present && n in d.names && EndsWith(n, suffix) :: Rank(n) == rank
    ensures InVisitOrder(Entries(dir, Group(d, suffix)))
    ensures forall e | e in Entries(dir, Group(d, suffix)) :: Rank(e.name) == rank
  {
    var g := Group(d, suffix);
    var es := Entries(dir, g);
    GroupInVisitOrder(dir, g, rank);
    forall e | e in es
      ensures Rank(e.name) == rank
    {
      var i :| 0 <= i < |es| && es[i] == e;
      assert e.name == g[i];
    }
  }

  /** Three runs in visit order of ranks 0, 1 and 2 concatenate in visit order. */
  lemma ThreeRunsInVisitOrder(a: seq<Entry>, b: seq<Entry>, c: seq<Entry>)
    requires InVisitOrder(a) && InVisitOrder(b) && InVisitOrder(c)
    requires forall e | e in a :: Rank(e.name) == 0
    requires forall e | e in b :: Rank(e.name) == 1
    requires forall e | e in c :: Rank(e.name) == 2
    ensures InVisitOrder(a + b + c)
  {
    forall i, j | 0 <= i < |a| && 0 <= j < |b|
      ensures Rank(a[i].name) < Rank(b[j].name)
    {
      assert a[i] in a && b[j] in b;
    }
    ConcatInVisitOrder(a, b);
    forall i, j | 0 <= i < |a + b| && 0 <= j < |c|
      ensures Rank((a + b)[i].name) < Rank(c[j].name)
    {
      assert (a + b)[i] in a || (a + b)[i] in b;
      assert c[j] in c;
    }
    ConcatInVisitOrder(a + b, c);
  }

  /** Files are visited as sorted `.txt` names, then sorted `.md` names (both from the PRD
      directory), then sorted `.json` names from the design directory. */
  lemma VisitOrderIsOrdered(prds: Directory, designs: Directory)
    ensures InVisitOrder(VisitOrder(prds, designs))
  {
    forall n | prds.present && n in prds.names && EndsWith(n, MarkdownSuffix)
      ensures Rank(n) == 1
    {
      SuffixesExclusive(n);
    }
    forall n | designs.present && n in designs.names && EndsWith(n, JsonSuffix)
      ensures Rank(n) == 2
    {
      SuffixesExclusive(n);
    }
    GroupEntries(prds.path, prds, TextSuffix, 0);
    GroupEntries(prds.path, prds, MarkdownSuffix, 1);
    GroupEntries(designs.path, designs, JsonSuffix, 2);
    ThreeRunsInVisitOrder(
      Entries(prds.path, Group(prds, TextSuffix)),
      Entries(prds.path, Group(prds, MarkdownSuffix)),
      Entries(designs.path, Group(designs, JsonSuffix)));
  }

  /** An entry is in a group's entries exactly when it has the directory and a name of the group. */
  lemma EntriesMembership(dir: string, names: seq<string>)
    ensures forall e :: e in Entries(dir, names) <==> e.dir == dir && e.name in names
  {
    var es := Entries(dir, names);
    forall e: Entry | e.dir == dir && e.name in names
      ensures e in es
    {
      var k :| 0 <= k < |names| && names[k] == e.name;
      assert es[k] == e;
    }
  }

  /** Exactly the selected files are visited: the existing directories' names matching the globs. */
  lemma VisitOrderSelects(prds: Directory, designs: Directory)
    ensures forall e :: e in VisitOrder(prds, designs) <==> Selected(prds, designs, e)
  {
    var ga := Group(prds, TextSuffix);
    var gb := Group(prds, MarkdownSuffix);
    var gc := Group(designs, JsonSuffix);
    EntriesMembership(prds.path, ga);
    EntriesMembership(prds.path, gb);
    EntriesMembership(designs.path, gc);
    var a, b, c := Entries(prds.path, ga), Entries(prds.path, gb), Entries(designs.path, gc);
    forall e: Entry
      ensures e in a + b + c <==> Selected(prds, designs, e)
    {
      assert e in a + b + c <==> e in a || e in b || e in c;
    }
  }

  /** A key names its entry's file: within one directory, equal keys mean equal names. */
  lemma PathKeySameDir(dir: string, a: string, b: string)
    requires PathKey(Entry(dir, a)) == PathKey(Entry(dir, b))
    ensures a == b
  {
    var p := DirPrefix(dir);
    assert PathKey(Entry(dir, a)) == p + a && PathKey(Entry(dir, b)) == p + b;
    assert (p + a)[|p|..] == a && (p + b)[|p|..] == b;
  }

  /** A key ends with its name's last character. */
  lemma PathKeyLast(e: Entry)
    requires e.name != []
    ensures PathKey(e)[|PathKey(e)| - 1] == e.name[|e.name| - 1]
  {
    var k := PathKey(e);
    assert k[|k| - 1] == k[|k| - |e.name|..][|e.name| - 1];
  }

  /** The keys of one directory's distinct names are distinct. */
  lemma EntriesKeysDistinct(dir: string, names: seq<string>)
    requires NoDuplicates(names)
    ensures NoDuplicates(Keys(Entries(dir, names)))
  {
    var ks := Keys(Entries(dir, names));
    forall i, j | 0 <= i < j < |ks|
      ensures ks[i] != ks[j]
    {
      if ks[i] == ks[j] {
        PathKeySameDir(dir, names[i], names[j]);
      }
    }
  }

  /** Every key of names ending with `suffix` ends with the suffix's last character. */
  lemma {:induction false} EntryKeysLast(dir: string, names: seq<string>, suffix: string)
    requires suffix != []
    requires forall n | n in names :: EndsWith(n, suffix)
    ensures forall k | k in Keys(Entries(dir, names)) :: k != [] && k[|k| - 1] == suffix[|suffix| - 1]
  {
    var ks := Keys(Entries(dir, names));
    forall k | k in ks
      ensures k != [] && k[|k| - 1] == suffix[|suffix| - 1]
    {
      var i :| 0 <= i < |ks| && ks[i] == k;
      assert names[i] in names;
      KeyLast(dir, names[i], suffix);
    }
  }

  /** The key of a name ending with `suffix` ends with the suffix's last character. */
  lemma KeyLast(dir: string, name: string, suffix: string)
    requires suffix != [] && EndsWith(name, suffix)
    ensures var k := PathKey(Entry(dir, name)); k != [] && k[|k| - 1] == suffix[|suffix| - 1]
  {
    EndsWithLast(name, suffix);
    PathKeyLast(Entry(dir, name));
  }

  /** Every key of a group ends with the last character of the group's suffix. */
  lemma {:induction false} GroupKeysLast(dir: string, d: Directory, suffix: string)
    requires suffix != []
    ensures forall k | k in Keys(Entries(dir, Group(d, suffix))) :: k != [] && k[|k| - 1] == suffix[|suffix| - 1]
  {
    EntryKeysLast(dir, Group(d, suffix), suffix);
  }

  /** Two duplicate-free sequences with no common element concatenate without duplicates. */
  lemma NoDuplicatesConcat<T>(x: seq<T>, y: seq<T>)
    requires NoDuplicates(x) && NoDuplicates(y)
    requires forall v | v in x :: v !in y
    ensures NoDuplicates(x + y)
  {
    var r := x + y;
    forall i, j | 0 <= i < j < |r|
      ensures r[i] != r[j]
    {
      if j < |x| {
        assert r[i] == x[i] && r[j] == x[j];
      } else if i >= |x| {
        assert r[i] == y[i - |x|] && r[j] == y[j - |x|];
      } else {
        assert r[i] == x[i] && r[j] == y[j - |x|];
        assert x[i] in x;
      }
    }
  }

  /** Keys distribute over concatenation. */
  lemma KeysConcat(a: seq<Entry>, b: seq<Entry>)
    ensures Keys(a + b) == Keys(a) + Keys(b)
  {
  }

  /** When no directory listing repeats a name, no file key is visited twice. */
  lemma VisitKeysDistinct(prds: Directory, designs: Directory)
    requires NoDuplicates(prds.names) && NoDuplicates(designs.names)
    ensures NoDuplicates(Keys(VisitOrder(prds, designs)))
  {
    var a := Entries(prds.path, Group(prds, TextSuffix));
    var b := Entries(prds.path, Group(prds, MarkdownSuffix));
    var c := Entries(designs.path, Group(designs, JsonSuffix));
    EntriesKeysDistinct(prds.path, Group(prds, TextSuffix));
    EntriesKeysDistinct(prds.path, Group(prds, MarkdownSuffix));
    EntriesKeysDistinct(designs.path, Group(designs, JsonSuffix));
    GroupKeysLast(prds.path, prds, TextSuffix);
    GroupKeysLast(prds.path, prds, MarkdownSuffix);
    GroupKeysLast(designs.path, designs, JsonSuffix);
    KeysConcat(a, b);
    NoDuplicatesConcat(Keys(a), Keys(b));
    KeysConcat(a + b, c);
    NoDuplicatesConcat(Keys(a) + Keys(b), Keys(c));
  }
}

=== FILE: inputs.dfy ===
/**
 What the outside world shows the ingest scripts about one file: its bytes, the
 outcome of reading it as UTF-8 text, and the knowledge-base server's answer to
 the INSERT statement. The scripts' HTTP client, file reads and MD5 digests are
 not modelled; their results enter the model as these values.
 */
module Inputs {

  /** One byte of a file as read in binary mode. */
  newtype Byte = x: int | 0 <= x < 256

  /** A content digest (the scripts store MD5 hex digests; the digest function is a parameter). */
  type Hash = string

  /** Reading a file as UTF-8 text: its content, or the message of the exception raised. */
  datatype ReadResult = Text(content: string) | ReadError(reason: string)

  /** What `execute_sql` reports for one SQL statement. `Accepted` is its success: HTTP status
      200 with a JSON body, whatever that body says (an error the server reports inside such a
      body is still a success). `Rejected` carries the error text: another status, a body that
      is not JSON, or a failed request. */
  datatype Reply = Accepted | Rejected(reason: string)
}

=== FILE: plain_run.dfy ===
/**
 The plain ingest script: after the status check, every file in visit order is
 read and sent in an INSERT statement, with no change tracking; the script
 counts successes and failures and ends with exit status 0 whatever failed.
 */
module PlainRun {
  import opened Wrappers
  import opened Inputs
  import opened Discovery
  import opened SqlQuery
  import opened SmartIngest
  import SmartRun

  /** What one call sees: the result of reading the file as text and the server's reply. */
  datatype PlainProbe = PlainProbe(read: ReadResult, reply: Reply)

  /** The pair `ingest_file` returns, and the INSERT statement it sent, if any. `error` is the
      text shown for a failure; the result of a success is never shown and is left empty. */
  datatype Attempt = Attempt(success: bool, error: string, sent: Option<string>)

  /** The command line and the outcome of the status check. */
  datatype PlainInvocation = PlainInvocation(connected: bool, prds: Directory, designs: Directory)

  /** What a run shows: one attempt per file visited, the two counters, and the exit status. */
  datatype PlainReport = PlainReport(attempts: seq<Attempt>, ingested: nat, failed: nat, exitCode: int)

  /** `ingest_file(host, port, file_path)` of the plain script. */
  function IngestOnce(p: PlainProbe): (r: Attempt)
    ensures r.success <==> p.read.Text? && p.reply.Accepted?
    ensures r.sent.Some? <==> p.read.Text?
    ensures p.read.ReadError? ==> r.error == p.read.reason
    ensures p.read.Text? && p.reply.Rejected? ==> r.error == p.reply.reason
  {
    match p.read
    case ReadError(reason) => Attempt(false, reason, None)
    case Text(content) =>
      match p.reply
      case Accepted => Attempt(true, [], Some(InsertQuery(content)))
      case Rejected(reason) => Attempt(false, reason, Some(InsertQuery(content)))
  }

  /** The statement sent carries the file's text as its only literal, quotes included. */
  lemma IngestOnceSendsContent(p: PlainProbe)
    requires p.read.Text?
    ensures FirstLiteral(IngestOnce(p).sent.value) == Some(Lexeme(p.read.content, InsertTail))
  {
    InsertQueryCarriesContent(p.read.content);
  }

  /** Number of successful attempts. */
  function Successes(attempts: seq<Attempt>): nat
  {
    if attempts == [] then 0
    else Successes(attempts[..|attempts| - 1]) + (if attempts[|attempts| - 1].success then 1 else 0)
  }

  /** Counting one more attempt. */
  lemma SuccessesAppend(attempts: seq<Attempt>, a: Attempt)
    ensures Successes(attempts + [a]) == Successes(attempts) + (if a.success then 1 else 0)
  {
    assert (attempts + [a])[..|attempts|] == attempts;
  }

  /** The two loops of `main()`: one attempt per file, in order, counted as they go. */
  method IngestAll(files: seq<Key>, world: Key -> PlainProbe) returns (attempts: seq<Attempt>, ingested: nat, failed: nat)
    ensures |attempts| == |files|
    ensures forall i | 0 <= i < |files| :: attempts[i] == IngestOnce(world(files[i]))
    ensures ingested == Successes(attempts)
    ensures ingested + failed == |files|
  {
    attempts := [];
    ingested, failed := 0, 0;
    for i := 0 to |files|
      invariant |attempts| == i
      invariant forall j | 0 <= j < i :: attempts[j] == IngestOnce(world(files[j]))
      invariant ingested == Successes(attempts)
      invariant ingested + failed == i
    {
      var a := IngestOnce(world(files[i]));
      if a.success {
        ingested := ingested + 1;
      } else {
        failed := failed + 1;
      }
      SuccessesAppend(attempts, a);
      attempts := attempts + [a];
    }
  }

  /** `main()` of the plain script. */
  method RunPlain(inv: PlainInvocation, world: Key -> PlainProbe) returns (r: PlainReport)
    ensures !inv.connected ==> r == PlainReport([], 0, 0, 1)
    ensures inv.connected ==> r.exitCode == 0
    ensures inv.connected ==>
      var files := Keys(VisitOrder(inv.prds, inv.designs));
      && |r.attempts| == |files|
      && forall i | 0 <= i < |files| :: r.attempts[i] == IngestOnce(world(files[i]))
    ensures r.ingested == Successes(r.attempts)
    ensures r.ingested + r.failed == |r.attempts|
  {
    if !inv.connected {
      return PlainReport([], 0, 0, 1);
    }
    var attempts, ingested, failed := IngestAll(Keys(VisitOrder(inv.prds, inv.designs)), world);
    return PlainReport(attempts, ingested, failed, 0);
  }

  /** What the plain script sees of a file the smart script would probe. */
  function Plain(p: FileProbe): PlainProbe
  {
    PlainProbe(p.read, p.reply)
  }

  /** A file the tracking map does not know: the smart step ingests it exactly when the
      plain step succeeds, and both send the same statement. */
  lemma UntrackedStepMatchesPlain(key: Key, p: FileProbe, digest: seq<Byte> -> Hash, t: Tracking)
    requires key !in t
    ensures IngestFile(key, p, digest, t).outcome.status == Ingested <==> IngestOnce(Plain(p)).success
    ensures IngestFile(key, p, digest, t).sent == IngestOnce(Plain(p)).sent
  {
  }

  /** With repeated names ruled out, a forced smart run ingests exactly the files the
      plain script succeeds on, and fails on the rest. */
  lemma {:induction false} ForceRunMatchesPlain(inv: SmartRun.Invocation, world: Key -> FileProbe, digest: seq<Byte> -> Hash)
    requires inv.connected && inv.force
    requires NoDuplicates(inv.prds.names) && NoDuplicates(inv.designs.names)
    ensures var keys := Keys(VisitOrder(inv.prds, inv.designs));
      var r := SmartRun.Run(inv, world, digest);
      forall i | 0 <= i < |keys| ::
        && (r.outcomes[i].status == Ingested <==> IngestOnce(Plain(world(keys[i]))).success)
        && (r.outcomes[i].status == Failed <==> !IngestOnce(Plain(world(keys[i]))).success)
  {
    var es := VisitOrder(inv.prds, inv.designs);
    var keys := Keys(es);
    var vs := SmartRun.Visits(es, world);
    var r := SmartRun.Run(inv, world, digest);
    SmartRun.RunIsPass(inv, world, digest);
    SmartRun.ForceSkipsNothing(inv, world, digest);
    VisitKeysDistinct(inv.prds, inv.designs);
    SmartRun.VisitKeysOfVisits(es, world);
    forall i | 0 <= i < |keys|
      ensures r.outcomes[i].status == Ingested <==> IngestOnce(Plain(world(keys[i]))).success
    {
      SmartRun.KeyVisitedOnce(vs, i);
      SmartRun.FirstVisitSeesStart(vs, digest, map[], i);
      UntrackedStepMatchesPlain(keys[i], world(keys[i]), digest, map[]);
    }
  }
}

=== FILE: smart_ingest.dfy ===
/**
 One call of `ingest_file` in the smart ingest script: a file is skipped when the
 tracking map already holds its current digest; otherwise its text is sent in an
 INSERT statement, and only an insert that `execute_sql` reports as a success (see
 `Reply`) records the digest.
 */
module SmartIngest {
  import opened Wrappers
  import opened Inputs
  import SqlQuery

  /** A file key, `str(file_path)`. */
  type Key = string

  /** The tracking map: file key to the digest of the content last ingested. */
  type Tracking = map<Key, Hash>

  /** The three statuses `ingest_file` reports. */
  datatype Status = Ingested | Skipped | Failed

  /** The triple `ingest_file` returns: status, message and chunks created. */
  datatype Outcome = Outcome(status: Status, message: string, chunks: int)

  /** What one call sees of a file and the server: the file's bytes, the result of reading
      it as text, the chunk count before the insert, the server's reply, and the chunk count
      after it (queried only when the insert is accepted). */
  datatype FileProbe = FileProbe(data: seq<Byte>, read: ReadResult, countBefore: int, reply: Reply, countAfter: int)

  /** The result of one call: the outcome, the tracking map afterwards, and the INSERT
      statement sent to the server, if any (the chunk-count queries are not modelled). */
  datatype Step = Step(outcome: Outcome, tracking: Tracking, sent: Option<string>)

  const SkipMessage: string := "Already ingested"
  const SuccessMessage: string := "Success"

  /** The tracking map already records `h` for `key`. */
  predicate AlreadyIngested(t: Tracking, key: Key, h: Hash)
  {
    key in t && t[key] == h
  }

  /** Two tracking maps hold the same entry (or none) for `k`. */
  predicate Agree(t1: Tracking, t2: Tracking, k: Key)
  {
    (k in t1 <==> k in t2) && (k in t1 ==> t1[k] == t2[k])
  }

  /** `ingest_file(file_path, tracking)`. */
  function IngestFile(key: Key, p: FileProbe, digest: seq<Byte> -> Hash, t: Tracking): (r: Step)
    ensures r.outcome.status == Skipped <==> AlreadyIngested(t, key, digest(p.data))
    ensures r.outcome.status == Skipped ==> r.outcome == Outcome(Skipped, SkipMessage, 0) && r.tracking == t
    ensures r.outcome.status == Ingested <==>
      !AlreadyIngested(t, key, digest(p.data)) && p.read.Text? && p.reply.Accepted?
    ensures r.outcome.status == Ingested ==>
      && r.tracking == t[key := digest(p.data)]
      && r.outcome.message == SuccessMessage
      && r.outcome.chunks == p.countAfter - p.countBefore
    ensures r.outcome.status == Failed ==> r.tracking == t && r.outcome.chunks == 0
    ensures r.sent.Some? <==> !AlreadyIngested(t, key, digest(p.data)) && p.read.Text?
    ensures r.sent.Some? ==>
      SqlQuery.FirstLiteral(r.sent.value) == Some(SqlQuery.Lexeme(p.read.content, SqlQuery.InsertTail))
  {
    var h := digest(p.data);
    if AlreadyIngested(t, key, h) then Step(Outcome(Skipped, SkipMessage, 0), t, None)
    else
      match p.read
      case ReadError(reason) => Step(Outcome(Failed, reason, 0), t, None)
      case Text(content) =>
        SqlQuery.InsertQueryCarriesContent(content);
        var q := SqlQuery.InsertQuery(content);
        match p.reply
        case Accepted => Step(Outcome(Ingested, SuccessMessage, p.countAfter - p.countBefore), t[key := h], Some(q))
        case Rejected(reason) => Step(Outcome(Failed, reason, 0), t, Some(q))
  }

  /** A call changes the tracking map at its own key only. */
  lemma IngestFileTouchesOwnKey(key: Key, p: FileProbe, digest: seq<Byte> -> Hash, t: Tracking, k: Key)
    requires k != key
    ensures Agree(IngestFile(key, p, digest, t).tracking, t, k)
  {
  }

  /** A call's outcome depends on the tracking map only through the entry for its key. */
  lemma IngestFileLocal(key: Key, p: FileProbe, digest: seq<Byte> -> Hash, t1: Tracking, t2: Tracking)
    requires Agree(t1, t2, key)
    ensures IngestFile(key, p, digest, t1).outcome == IngestFile(key, p, digest, t2).outcome
    ensures Agree(IngestFile(key, p, digest, t1).tracking, IngestFile(key, p, digest, t2).tracking, key)
  {
  }

  /** Idempotence: once a file is ingested (or skipped), a second call with the same
      bytes is skipped. */
  lemma SecondCallSkips(key: Key, p1: FileProbe, p2: FileProbe, digest: seq<Byte> -> Hash, t: Tracking)
    requires IngestFile(key, p1, digest, t).outcome.status != Failed
    requires p2.data == p1.data
    ensures IngestFile(key, p2, digest, IngestFile(key, p1, digest, t).tracking).outcome.status == Skipped
  {
  }

  /** Change detection: a file whose digest differs from the recorded one, or that has no
      record, is not skipped. */
  lemma ChangedFileNotSkipped(key: Key, p: FileProbe, digest: seq<Byte> -> Hash, t: Tracking)
    requires key !in t || t[key] != digest(p.data)
    ensures IngestFile(key, p, digest, t).outcome.status != Skipped
  {
  }
}

=== FILE: smart_run.dfy ===
/**
 The `main` loop of the smart ingest script: start from an empty tracking map in
 force mode (the stored one otherwise), stop with exit code 1 when the server is
 unreachable, call `ingest_file` on every file in visit order while threading the
 tracking map through, count each outcome, save the map, and exit with 0 exactly
 when no file failed.
 */
module SmartRun {
  import opened Wrappers
  import opened Inputs
  import opened SmartIngest
  import opened Discovery

  /** One file visited: its key and what the environment shows of it. */
  datatype Visit = Visit(key: Key, probe: FileProbe)

  /** The outcomes of a pass over some files and the tracking map it leaves. */
  datatype Pass = Pass(outcomes: seq<Outcome>, tracking: Tracking)

  /** The `stats` dictionary. */
  datatype Stats = Stats(ingested: nat, skipped: nat, failed: nat, totalChunks: int)

  /** The command line and the state found at start-up: `--force`, the stored tracking map,
      whether the status check succeeded, and the two directories. */
  datatype Invocation = Invocation(force: bool, stored: Tracking, connected: bool, prds: Directory, designs: Directory)

  /** The observable result of one run: the per-file outcomes, the statistics, the tracking
      map written back (none when the run stopped early), and the exit code. */
  datatype Report = Report(outcomes: seq<Outcome>, stats: Stats, saved: Option<Tracking>, exitCode: int)

  /** The keys of a sequence of visits. */
  function VisitKeys(vs: seq<Visit>): (r: seq<Key>)
    ensures |r| == |vs|
    ensures forall i | 0 <= i < |vs| :: r[i] == vs[i].key
  {
    if vs == [] then [] else [vs[0].key] + VisitKeys(vs[1..])
  }

  /** `ingest_file` applied to each visit in order, threading the tracking map. */
  function Process(vs: seq<Visit>, digest: seq<Byte> -> Hash, t: Tracking): (r: Pass)
    ensures |r.outcomes| == |vs|
    ensures forall k | k !in VisitKeys(vs) :: Agree(r.tracking, t, k)
    decreases |vs|
  {
    if vs == [] then Pass([], t)
    else
      var s := IngestFile(vs[0].key, vs[0].probe, digest, t);
      var rest := Process(vs[1..], digest, s.tracking);
      forall k | k !in VisitKeys(vs)
        ensures Agree(rest.tracking, t, k)
      {
        assert VisitKeys(vs) == [vs[0].key] + VisitKeys(vs[1..]);
        IngestFileTouchesOwnKey(vs[0].key, vs[0].probe, digest, t, k);
      }
      Pass([s.outcome] + rest.outcomes, rest.tracking)
  }

  /** One outcome counted into the statistics, as the branches of the loop body do. */
  function Tally(s: Stats, o: Outcome): (r: Stats)
    ensures r.ingested + r.skipped + r.failed == s.ingested + s.skipped + s.failed + 1
    ensures s.ingested <= r.ingested && s.skipped <= r.skipped && s.failed <= r.failed
    ensures r.ingested > s.ingested <==> o.status == Ingested
    ensures r.skipped > s.skipped <==> o.status == Skipped
    ensures r.failed > s.failed <==> o.status == Failed
    ensures r.totalChunks == s.totalChunks + (if o.status == Ingested then o.chunks else 0)
  {
    match o.status
    case Ingested => s.(ingested := s.ingested + 1, totalChunks := s.totalChunks + o.chunks)
    case Skipped => s.(skipped := s.skipped + 1)
    case Failed => s.(failed := s.failed + 1)
  }

  /** The loop's statistics: the outcomes counted in order, starting from `acc`. */
  function Summarize(os: seq<Outcome>, acc: Stats): (r: Stats)
    ensures r.ingested + r.skipped + r.failed == acc.ingested + acc.skipped + acc.failed + |os|
    ensures acc.failed <= r.failed
    decreases |os|
  {
    if os == [] then acc else Summarize(os[1..], Tally(acc, os[0]))
  }

  /** The statistics before the first file. */
  const NoStats: Stats := Stats(0, 0, 0, 0)

  /** Number of outcomes with status `st`. */
  function CountStatus(os: seq<Outcome>, st: Status): nat
  {
    if os == [] then 0 else CountStatus(os[..|os| - 1], st) + (if os[|os| - 1].status == st then 1 else 0)
  }

  /** Sum of the chunk counts of the ingested outcomes. */
  function IngestedChunks(os: seq<Outcome>): int
  {
    if os == [] then 0 else IngestedChunks(os[..|os| - 1]) + (if os[|os| - 1].status == Ingested then os[|os| - 1].chunks else 0)
  }

  /** The exit code: 0 exactly when no file failed. */
  function ExitCode(s: Stats): (r: int)
    ensures r == 0 || r == 1
    ensures r == 0 <==> s.failed == 0
  {
    if s.failed == 0 then 0 else 1
  }

  /** The visits of a run: each file in visit order with what the world shows of it. */
  function Visits(es: seq<Entry>, world: Key -> FileProbe): (r: seq<Visit>)
    ensures |r| == |es|
    ensures forall i | 0 <= i < |es| :: r[i] == Visit(PathKey(es[i]), world(PathKey(es[i])))
  {
    if es == [] then [] else [Visit(PathKey(es[0]), world(PathKey(es[0])))] + Visits(es[1..], world)
  }

  /** The tracking map a run starts from. */
  function StartTracking(inv: Invocation): (r: Tracking)
    ensures r.Keys <= inv.stored.Keys
    ensures inv.force ==> r == map[]
    ensures !inv.force ==> r == inv.stored
  {
    if inv.force then map[] else inv.stored
  }

  /** `main()` of the smart ingest script. */
  function Run(inv: Invocation, world: Key -> FileProbe, digest: seq<Byte> -> Hash): (r: Report)
    ensures r.saved.Some? <==> inv.connected
    ensures r.exitCode == 0 || r.exitCode == 1
    ensures inv.connected ==> |r.outcomes| == |VisitOrder(inv.prds, inv.designs)|
  {
    if !inv.connected then Report([], NoStats, None, 1)
    else
      var vs := Visits(VisitOrder(inv.prds, inv.designs), world);
      var pass := Process(vs, digest, StartTracking(inv));
      var stats := Summarize(pass.outcomes, NoStats);
      Report(pass.outcomes, stats, Some(pass.tracking), ExitCode(stats))
  }

  /** The counts `CountStatus` and `IngestedChunks` split over a concatenation. */
  lemma {:induction false} CountsAppend(os: seq<Outcome>, o: Outcome)
    ensures CountStatus(os + [o], Ingested) == CountStatus(os, Ingested) + (if o.status == Ingested then 1 else 0)
    ensures CountStatus(os + [o], Skipped) == CountStatus(os, Skipped) + (if o.status == Skipped then 1 else 0)
    ensures CountStatus(os + [o], Failed) == CountStatus(os, Failed) + (if o.status == Failed then 1 else 0)
    ensures IngestedChunks(os + [o]) == IngestedChunks(os) + (if o.status == Ingested then o.chunks else 0)
  {
    assert (os + [o])[..|os + [o]| - 1] == os;
  }

  /** The loop's counters are the numbers of outcomes of each status, and its chunk total
      is the sum over the ingested outcomes. */
  lemma {:induction false} SummarizeCounts(os: seq<Outcome>, acc: Stats, done: seq<Outcome>)
    requires acc == Stats(CountStatus(done, Ingested), CountStatus(done, Skipped), CountStatus(done, Failed), IngestedChunks(done))
    ensures Summarize(os, acc) == Stats(
      CountStatus(done + os, Ingested), CountStatus(done + os, Skipped),
      CountStatus(done + os, Failed), IngestedChunks(done + os))
    decreases |os|
  {
    if os == [] {
      assert done + os == done;
    } else {
      CountsAppend(done, os[0]);
      assert done + os == (done + [os[0]]) + os[1..];
      SummarizeCounts(os[1..], Tally(acc, os[0]), done + [os[0]]);
    }
  }

  /** Every counter total equals the number of outcomes. */
  lemma {:induction false} CountsCover(os: seq<Outcome>)
    ensures CountStatus(os, Ingested) + CountStatus(os, Skipped) + CountStatus(os, Failed) == |os|
    decreases |os|
  {
    if os != [] {
      CountsCover(os[..|os| - 1]);
    }
  }

  /** No outcome has status `st` exactly when the count of `st` is zero. */
  lemma {:induction false} CountZero(os: seq<Outcome>, st: Status)
    ensures CountStatus(os, st) == 0 <==> forall i | 0 <= i < |os| :: os[i].status != st
    decreases |os|
  {
    if os != [] {
      var init := os[..|os| - 1];
      CountZero(init, st);
      assert forall i | 0 <= i < |init| :: init[i] == os[i];
    }
  }

  /** Each processed file lands in exactly one counter: the counters add up to the number
      of files visited, and the chunk total sums the ingested files only. */
  lemma {:induction false} RunCounts(inv: Invocation, world: Key -> FileProbe, digest: seq<Byte> -> Hash)
    requires inv.connected
    ensures var r := Run(inv, world, digest);
      && |r.outcomes| == |VisitOrder(inv.prds, inv.designs)|
      && r.stats.ingested == CountStatus(r.outcomes, Ingested)
      && r.stats.skipped == CountStatus(r.outcomes, Skipped)
      && r.stats.failed == CountStatus(r.outcomes, Failed)
      && r.stats.ingested + r.stats.skipped + r.stats.failed == |r.outcomes|
      && r.stats.totalChunks == IngestedChunks(r.outcomes)
  {
    var r := Run(inv, world, digest);
    SummarizeCounts(r.outcomes, NoStats, []);
    assert [] + r.outcomes == r.outcomes;
    CountsCover(r.outcomes);
  }

  /** The exit code is 0 exactly when the server was reachable and no file failed. */
  lemma {:induction false} RunExitCode(inv: Invocation, world: Key -> FileProbe, digest: seq<Byte> -> Hash)
    ensures var r := Run(inv, world, digest);
      r.exitCode == 0 <==> inv.connected && forall i | 0 <= i < |r.outcomes| :: r.outcomes[i].status != Failed
  {
    if inv.connected {
      var r := Run(inv, world, digest);
      RunCounts(inv, world, digest);
      CountZero(r.outcomes, Failed);
    }
  }

  /** An unreachable server stops the run before any file is visited or the map is saved. */
  lemma UnreachableServerStops(inv: Invocation, world: Key -> FileProbe, digest: seq<Byte> -> Hash)
    requires !inv.connected
    ensures Run(inv, world, digest).outcomes == []
    ensures Run(inv, world, digest).saved == None
    ensures Run(inv, world, digest).exitCode == 1
  {
  }

  /** The step for a key not seen earlier in the pass sees the start map's entry for it. */
  lemma {:induction false} FirstVisitSeesStart(vs: seq<Visit>, digest: seq<Byte> -> Hash, t: Tracking, i: nat)
    requires i < |vs|
    requires forall j | 0 <= j < i :: vs[j].key != vs[i].key
    ensures Process(vs, digest, t).outcomes[i] == IngestFile(vs[i].key, vs[i].probe, digest, t).outcome
    decreases i
  {
    if i > 0 {
      var s := IngestFile(vs[0].key, vs[0].probe, digest, t);
      var tail := vs[1..];
      forall j | 0 <= j < i - 1
        ensures tail[j].key != tail[i - 1].key
      {
        assert tail[j] == vs[j + 1];
      }
      FirstVisitSeesStart(tail, digest, s.tracking, i - 1);
      ProcessLaterOutcome(vs, digest, t, i);
      LaterStepSeesStart(vs[0], vs[i], digest, t);
    }
  }

  /** A later outcome of a pass is an outcome of the pass over the remaining visits. */
  lemma ProcessLaterOutcome(vs: seq<Visit>, digest: seq<Byte> -> Hash, t: Tracking, i: nat)
    requires 0 < i < |vs|
    ensures var s := IngestFile(vs[0].key, vs[0].probe, digest, t);
      && vs[1..][i - 1] == vs[i]
      && Process(vs, digest, t).outcomes[i] == Process(vs[1..], digest, s.tracking).outcomes[i - 1]
  {
  }

  /** A step for another key leaves the outcome of a later step unchanged. */
  lemma LaterStepSeesStart(first: Visit, later: Visit, digest: seq<Byte> -> Hash, t: Tracking)
    requires first.key != later.key
    ensures var t1 := IngestFile(first.key, first.probe, digest, t).tracking;
      IngestFile(later.key, later.probe, digest, t1).outcome == IngestFile(later.key, later.probe, digest, t).outcome
  {
    var t1 := IngestFile(first.key, first.probe, digest, t).tracking;
    IngestFileTouchesOwnKey(first.key, first.probe, digest, t, later.key);
    IngestFileLocal(later.key, later.probe, digest, t1, t);
  }

  /** For a key visited once, the map after the pass holds what that key's step left. */
  lemma {:induction false} FinalEntryOfKey(vs: seq<Visit>, digest: seq<Byte> -> Hash, t: Tracking, i: nat)
    requires i < |vs|
    requires forall j | 0 <= j < |vs| && j != i :: vs[j].key != vs[i].key
    ensures Agree(Process(vs, digest, t).tracking, IngestFile(vs[i].key, vs[i].probe, digest, t).tracking, vs[i].key)
    decreases i
  {
    var s := IngestFile(vs[0].key, vs[0].probe, digest, t);
    var tail := vs[1..];
    if i == 0 {
      assert vs[0].key !in VisitKeys(tail);
    } else {
      assert tail[i - 1] == vs[i];
      forall j | 0 <= j < |tail| && j != i - 1
        ensures tail[j].key != tail[i - 1].key
      {
        assert tail[j] == vs[j + 1];
      }
      FinalEntryOfKey(tail, digest, s.tracking, i - 1);
      IngestFileTouchesOwnKey(vs[0].key, vs[0].probe, digest, t, vs[i].key);
      IngestFileLocal(vs[i].key, vs[i].probe, digest, s.tracking, t);
    }
  }

  /** Two sequences of visits to the same files in the same order, with unchanged bytes. */
  predicate SameFiles(vs1: seq<Visit>, vs2: seq<Visit>)
  {
    |vs1| == |vs2| && forall i | 0 <= i < |vs1| :: vs2[i].key == vs1[i].key && vs2[i].probe.data == vs1[i].probe.data
  }

  /** Among visits with distinct keys, the `i`-th key occurs nowhere else. */
  lemma {:induction false} KeyVisitedOnce(vs: seq<Visit>, i: nat)
    requires NoDuplicates(VisitKeys(vs)) && i < |vs|
    ensures forall j | 0 <= j < |vs| && j != i :: vs[j].key != vs[i].key
  {
    var keys := VisitKeys(vs);
    forall j | 0 <= j < |vs| && j != i
      ensures vs[j].key != vs[i].key
    {
      if j < i {
        assert keys[j] != keys[i];
      } else {
        assert keys[i] != keys[j];
      }
    }
  }

  /** The second pass skips the `i`-th file exactly when the first pass did not fail on it. */
  lemma {:induction false} SecondPassSkipsAt(vs1: seq<Visit>, vs2: seq<Visit>, digest: seq<Byte> -> Hash, t: Tracking, i: nat)
    requires SameFiles(vs1, vs2) && NoDuplicates(VisitKeys(vs1)) && i < |vs1|
    ensures var p1 := Process(vs1, digest, t);
      Process(vs2, digest, p1.tracking).outcomes[i].status == Skipped <==> p1.outcomes[i].status != Failed
  {
    var p1 := Process(vs1, digest, t);
    KeyVisitedOnce(vs1, i);
    FirstVisitSeesStart(vs1, digest, t, i);
    FirstVisitSeesStart(vs2, digest, p1.tracking, i);
    FinalEntryOfKey(vs1, digest, t, i);
  }

  /** A second pass over the same files with unchanged bytes, starting from the map the
      first pass left, skips exactly the files the first pass did not fail on. */
  lemma {:induction false} SecondPassSkipsExactly(vs1: seq<Visit>, vs2: seq<Visit>, digest: seq<Byte> -> Hash, t: Tracking)
    requires SameFiles(vs1, vs2) && NoDuplicates(VisitKeys(vs1))
    ensures var p1 := Process(vs1, digest, t);
      var p2 := Process(vs2, digest, p1.tracking);
      forall i | 0 <= i < |vs1| :: p2.outcomes[i].status == Skipped <==> p1.outcomes[i].status != Failed
  {
    forall i | 0 <= i < |vs1|
      ensures var p1 := Process(vs1, digest, t);
        Process(vs2, digest, p1.tracking).outcomes[i].status == Skipped <==> p1.outcomes[i].status != Failed
    {
      SecondPassSkipsAt(vs1, vs2, digest, t, i);
    }
  }

  /** Starting from an empty map, no file is skipped on its first visit. */
  lemma {:induction false} EmptyStartSkipsNoFirstVisit(vs: seq<Visit>, digest: seq<Byte> -> Hash, i: nat)
    requires i < |vs|
    requires forall j | 0 <= j < i :: vs[j].key != vs[i].key
    ensures Process(vs, digest, map[]).outcomes[i].status != Skipped
  {
    FirstVisitSeesStart(vs, digest, map[], i);
  }

  /** The visits of a run have the keys of the files in visit order. */
  lemma VisitKeysOfVisits(es: seq<Entry>, world: Key -> FileProbe)
    ensures VisitKeys(Visits(es, world)) == Keys(es)
  {
  }

  /** In force mode the run starts from an empty map, so no file is skipped on its first visit. */
  lemma {:induction false} ForceSkipsNoFirstVisit(inv: Invocation, world: Key -> FileProbe, digest: seq<Byte> -> Hash)
    requires inv.connected && inv.force
    ensures var keys := Keys(VisitOrder(inv.prds, inv.designs));
      var r := Run(inv, world, digest);
      forall i | 0 <= i < |keys| && keys[i] !in keys[..i] :: r.outcomes[i].status != Skipped
  {
    var es := VisitOrder(inv.prds, inv.designs);
    var keys := Keys(es);
    var vs := Visits(es, world);
    VisitKeysOfVisits(es, world);
    forall i | 0 <= i < |keys| && keys[i] !in keys[..i]
      ensures Process(vs, digest, map[]).outcomes[i].status != Skipped
    {
      forall j | 0 <= j < i
        ensures vs[j].key != vs[i].key
      {
        assert keys[..i][j] == keys[j];
      }
      EmptyStartSkipsNoFirstVisit(vs, digest, i);
    }
  }

  /** With directory listings free of repeated names, force mode skips no file at all. */
  lemma {:induction false} ForceSkipsNothing(inv: Invocation, world: Key -> FileProbe, digest: seq<Byte> -> Hash)
    requires inv.connected && inv.force
    requires NoDuplicates(inv.prds.names) && NoDuplicates(inv.designs.names)
    ensures var r := Run(inv, world, digest);
      forall i | 0 <= i < |r.outcomes| :: r.outcomes[i].status != Skipped
  {
    var es := VisitOrder(inv.prds, inv.designs);
    var vs := Visits(es, world);
    VisitKeysDistinct(inv.prds, inv.designs);
    VisitKeysOfVisits(es, world);
    forall i | 0 <= i < |vs|
      ensures Process(vs, digest, map[]).outcomes[i].status != Skipped
    {
      forall j | 0 <= j < i
        ensures vs[j].key != vs[i].key
      {
        assert VisitKeys(vs)[j] == vs[j].key;
      }
      EmptyStartSkipsNoFirstVisit(vs, digest, i);
    }
  }

  /** A connected run is one pass over the files in visit order from the start map,
      and it saves the map that pass leaves. */
  lemma RunIsPass(inv: Invocation, world: Key -> FileProbe, digest: seq<Byte> -> Hash)
    requires inv.connected
    ensures var p := Process(Visits(VisitOrder(inv.prds, inv.designs), world), digest, StartTracking(inv));
      Run(inv, world, digest).outcomes == p.outcomes && Run(inv, world, digest).saved == Some(p.tracking)
  {
  }

  /** Visiting the same files in two worlds whose files hold the same bytes. */
  lemma VisitsSameFiles(es: seq<Entry>, world1: Key -> FileProbe, world2: Key -> FileProbe)
    requires forall k :: world2(k).data == world1(k).data
    ensures SameFiles(Visits(es, world1), Visits(es, world2))
  {
  }

  /** Re-running without `--force` on the map the first run saved, with every file's bytes
      unchanged, skips exactly the files the first run did not fail on. */
  lemma {:induction false} RerunSkipsExactly(inv: Invocation, world1: Key -> FileProbe, world2: Key -> FileProbe,
                          digest: seq<Byte> -> Hash)
    requires inv.connected
    requires NoDuplicates(inv.prds.names) && NoDuplicates(inv.designs.names)
    requires forall k :: world2(k).data == world1(k).data
    ensures var r1 := Run(inv, world1, digest);
      var r2 := Run(inv.(force := false, stored := r1.saved.value), world2, digest);
      && |r2.outcomes| == |r1.outcomes|
      && forall i | 0 <= i < |r1.outcomes| :: r2.outcomes[i].status == Skipped <==> r1.outcomes[i].status != Failed
  {
    var es := VisitOrder(inv.prds, inv.designs);
    var vs1, vs2 := Visits(es, world1), Visits(es, world2);
    var t := StartTracking(inv);
    VisitKeysDistinct(inv.prds, inv.designs);
    VisitKeysOfVisits(es, world1);
    VisitsSameFiles(es, world1, world2);
    SecondPassSkipsExactly(vs1, vs2, digest, t);
    RunIsPass(inv, world1, digest);
    var p1 := Process(vs1, digest, t);
    var inv2 := inv.(force := false, stored := p1.tracking);
    RunIsPass(inv2, world2, digest);
  }

  /** The `i`-th visit of a pass ingested its file. */
  predicate IngestedAt(vs: seq<Visit>, p: Pass, i: int)
  {
    0 <= i < |vs| && i < |p.outcomes| && p.outcomes[i].status == Ingested
  }

  /** A pass adds to the map exactly the keys of the files it ingested, and removes none. */
  lemma {:induction false} ProcessDomain(vs: seq<Visit>, digest: seq<Byte> -> Hash, t: Tracking, k: Key)
    ensures var p := Process(vs, digest, t);
      k in p.tracking <==> k in t || exists i :: IngestedAt(vs, p, i) && vs[i].key == k
    decreases |vs|
  {
    var p := Process(vs, digest, t);
    if vs != [] {
      var s := IngestFile(vs[0].key, vs[0].probe, digest, t);
      var tail := vs[1..];
      var rest := Process(tail, digest, s.tracking);
      ProcessDomain(tail, digest, s.tracking, k);
      assert p.outcomes == [s.outcome] + rest.outcomes;
      if k in p.tracking && k !in t {
        if k in s.tracking {
          assert IngestedAt(vs, p, 0) && vs[0].key == k;
        } else {
          var i :| IngestedAt(tail, rest, i) && tail[i].key == k;
          assert IngestedAt(vs, p, i + 1) && vs[i + 1].key == k;
        }
      }
      if exists i :: IngestedAt(vs, p, i) && vs[i].key == k {
        var i :| IngestedAt(vs, p, i) && vs[i].key == k;
        if i > 0 {
          assert IngestedAt(tail, rest, i - 1) && tail[i - 1].key == k;
        }
      }
    }
  }

  /** The map a run saves holds the keys it started from and the keys of the files it
      ingested, and no others; in force mode, only the ingested keys. */
  lemma RunSavedKeys(inv: Invocation, world: Key -> FileProbe, digest: seq<Byte> -> Hash, k: Key)
    requires inv.connected
    ensures var vs := Visits(VisitOrder(inv.prds, inv.designs), world);
      var r := Run(inv, world, digest);
      && r.saved.Some?
      && (k in r.saved.value <==> (!inv.force && k in inv.stored) || exists i | 0 <= i < |vs| :: vs[i].key == k && r.outcomes[i].status == Ingested)
  {
    var vs := Visits(VisitOrder(inv.prds, inv.designs), world);
    RunIsPass(inv, world, digest);
    ProcessDomain(vs, digest, StartTracking(inv), k);
  }

  /** With directory listings free of repeated names, the saved map records the digest of
      every ingested file's bytes, and keeps the start entry of every file that was not ingested. */
  lemma {:induction false} RunSavedEntry(inv: Invocation, world: Key -> FileProbe, digest: seq<Byte> -> Hash, i: nat)
    requires inv.connected
    requires NoDuplicates(inv.prds.names) && NoDuplicates(inv.designs.names)
    requires i < |VisitOrder(inv.prds, inv.designs)|
    ensures var key := Keys(VisitOrder(inv.prds, inv.designs))[i];
      var r := Run(inv, world, digest);
      && r.saved.Some? && i < |r.outcomes|
      && (r.outcomes[i].status == Ingested ==> key in r.saved.value && r.saved.value[key] == digest(world(key).data))
      && (r.outcomes[i].status != Ingested ==> Agree(r.saved.value, StartTracking(inv), key))
  {
    var es := VisitOrder(inv.prds, inv.designs);
    var vs := Visits(es, world);
    var t := StartTracking(inv);
    RunIsPass(inv, world, digest);
    VisitKeysDistinct(inv.prds, inv.designs);
    VisitKeysOfVisits(es, world);
    KeyVisitedOnce(vs, i);
    FirstVisitSeesStart(vs, digest, t, i);
    FinalEntryOfKey(vs, digest, t, i);
  }
}

=== FILE: sql_escape.dfy ===
/**
 The SQL string-literal encoder shared by both ingest scripts
 (`escape_sql_string`, a `str.replace` of every `'` by `''`), its inverse
 (collapsing every `''` pair back to `'`), and the shape of its output:
 every maximal run of quotes in an escaped text has even length.
 */
module SqlEscape {

  /** The single quote that delimits SQL string literals. */
  const Quote: char := '\''

  /** Number of single quotes in `s`. */
  function CountQuotes(s: string): nat
  {
    if s == [] then 0 else (if s[0] == Quote then 1 else 0) + CountQuotes(s[1..])
  }

  /** The characters of `s` other than the single quote, in their original order. */
  function NonQuotes(s: string): string
  {
    if s == [] then [] else (if s[0] == Quote then [] else [s[0]]) + NonQuotes(s[1..])
  }

  /** The escaped form of one character. */
  function EscapeChar(c: char): string
  {
    if c == Quote then [Quote, Quote] else [c]
  }

  /** `escape_sql_string`: every quote is doubled, every other character is kept in place. */
  function Escape(text: string): (r: string)
    ensures |text| <= |r| <= 2 * |text|
  {
    if text == [] then [] else EscapeChar(text[0]) + Escape(text[1..])
  }

  /** Collapses each `''` pair back to `'`, scanning left to right without overlap
      (the semantics of `str.replace("''", "'")`); any other character is kept. */
  function Collapse(t: string): (r: string)
    ensures |r| <= |t|
    ensures CountQuotes(t) == 0 ==> r == t
    decreases |t|
  {
    if t == [] then []
    else if |t| >= 2 && t[0] == Quote && t[1] == Quote then [Quote] + Collapse(t[2..])
    else [t[0]] + Collapse(t[1..])
  }

  /** `t` splits into tokens that are either a single non-quote character or a `''` pair:
      exactly the texts that `Escape` can produce. */
  predicate WellPaired(t: string)
    decreases |t|
  {
    if t == [] then true
    else if t[0] != Quote then WellPaired(t[1..])
    else |t| >= 2 && t[1] == Quote && WellPaired(t[2..])
  }

  /** `t[i..j]` is a non-empty run of quotes that cannot be extended on either side. */
  predicate MaximalQuoteRun(t: string, i: int, j: int)
  {
    && 0 <= i < j <= |t|
    && (forall k | i <= k < j :: t[k] == Quote)
    && (i == 0 || t[i - 1] != Quote)
    && (j == |t| || t[j] != Quote)
  }

  /** Every maximal run of quotes in `t` has even length. */
  predicate EvenQuoteRuns(t: string)
  {
    forall i, j | 0 <= i < j <= |t| && MaximalQuoteRun(t, i, j) :: (j - i) % 2 == 0
  }

  /** Escaping proceeds from the first character on. */
  lemma EscapeCons(s: string)
    requires s != []
    ensures Escape(s) == EscapeChar(s[0]) + Escape(s[1..])
  {
  }

  /** The escaped text is longer than the original by one character per quote. */
  lemma {:induction false} EscapeLength(s: string)
    ensures |Escape(s)| == |s| + CountQuotes(s)
    decreases |s|
  {
    if s != [] {
      EscapeLength(s[1..]);
    }
  }

  /** A text has no quote exactly when its quote count is zero. */
  lemma {:induction false} CountQuotesZero(s: string)
    ensures CountQuotes(s) == 0 <==> Quote !in s
    decreases |s|
  {
    if s != [] {
      CountQuotesZero(s[1..]);
      assert s == [s[0]] + s[1..];
    }
  }

  /** A text without quotes is its own escape. */
  lemma {:induction false} EscapeNoQuote(s: string)
    requires Quote !in s
    ensures Escape(s) == s
    decreases |s|
  {
    if s != [] {
      assert s[0] != Quote && Quote !in s[1..];
      EscapeNoQuote(s[1..]);
      assert s == [s[0]] + s[1..];
    }
  }

  /** The escaped text holds exactly twice as many quotes as the original. */
  lemma {:induction false} EscapeQuoteCount(s: string)
    ensures CountQuotes(Escape(s)) == 2 * CountQuotes(s)
    decreases |s|
  {
    if s != [] {
      EscapeQuoteCount(s[1..]);
      var rest := Escape(s[1..]);
      if s[0] == Quote {
        assert ([Quote, Quote] + rest)[1..] == [Quote] + rest;
        assert ([Quote] + rest)[1..] == rest;
      } else {
        assert ([s[0]] + rest)[1..] == rest;
      }
    }
  }

  /** Every character other than the quote is kept, unchanged and in order. */
  lemma {:induction false} EscapeKeepsOthers(s: string)
    ensures NonQuotes(Escape(s)) == NonQuotes(s)
    decreases |s|
  {
    if s != [] {
      EscapeKeepsOthers(s[1..]);
      var rest := Escape(s[1..]);
      if s[0] == Quote {
        assert ([Quote, Quote] + rest)[1..] == [Quote] + rest;
        assert ([Quote] + rest)[1..] == rest;
      } else {
        assert ([s[0]] + rest)[1..] == rest;
      }
    }
  }

  /** Escaping distributes over concatenation: it works character by character. */
  lemma {:induction false} EscapeConcat(a: string, b: string)
    ensures Escape(a + b) == Escape(a) + Escape(b)
    decreases |a|
  {
    if a == [] {
      assert a + b == b;
    } else {
      assert (a + b)[0] == a[0];
      assert (a + b)[1..] == a[1..] + b;
      EscapeConcat(a[1..], b);
    }
  }

  /** The output of `Escape` is always well paired. */
  lemma {:induction false} EscapeWellPaired(s: string)
    ensures WellPaired(Escape(s))
    decreases |s|
  {
    if s != [] {
      EscapeWellPaired(s[1..]);
      var rest := Escape(s[1..]);
      if s[0] == Quote {
        assert ([Quote, Quote] + rest)[2..] == rest;
      } else {
        assert ([s[0]] + rest)[1..] == rest;
      }
    }
  }

  /** Round trip: collapsing the escaped text recovers the original text. */
  lemma {:induction false} CollapseEscape(s: string)
    ensures Collapse(Escape(s)) == s
    decreases |s|
  {
    if s != [] {
      CollapseEscape(s[1..]);
      var rest := Escape(s[1..]);
      if s[0] == Quote {
        assert ([Quote, Quote] + rest)[2..] == rest;
      } else {
        assert ([s[0]] + rest)[1..] == rest;
      }
      assert s == [s[0]] + s[1..];
    }
  }

  /** The other direction: a well-paired text is the escaped form of its collapse. */
  lemma {:induction false} EscapeCollapse(t: string)
    requires WellPaired(t)
    ensures Escape(Collapse(t)) == t
    decreases |t|
  {
    if t != [] {
      if t[0] == Quote {
        EscapeCollapse(t[2..]);
        var c := Collapse(t[2..]);
        assert ([Quote] + c)[1..] == c;
        assert t == [Quote, Quote] + t[2..];
      } else {
        EscapeCollapse(t[1..]);
        var c := Collapse(t[1..]);
        assert ([t[0]] + c)[1..] == c;
        assert t == [t[0]] + t[1..];
      }
    }
  }

  /** Escaping is characterised by the round trip: the escaped form of `s` is the only
      well-paired text that collapses to `s`. */
  lemma EscapeUnique(s: string, t: string)
    requires WellPaired(t) && Collapse(t) == s
    ensures t == Escape(s)
  {
    EscapeCollapse(t);
  }

  /** A run of quotes starting at the front of a well-paired text and ending at a
      non-quote (or the end) has even length. */
  lemma {:induction false} WellPairedLeadingRun(t: string, j: int)
    requires WellPaired(t)
    requires 0 <= j <= |t|
    requires forall k | 0 <= k < j :: t[k] == Quote
    requires j == |t| || t[j] != Quote
    ensures j % 2 == 0
    decreases j
  {
    if j > 0 {
      assert t[0] == Quote;
      assert |t| >= 2 && t[1] == Quote && WellPaired(t[2..]);
      assert j >= 2;
      var u := t[2..];
      forall k | 0 <= k < j - 2
        ensures u[k] == Quote
      {
        assert u[k] == t[k + 2];
      }
      assert j - 2 == |u| || u[j - 2] != Quote;
      WellPairedLeadingRun(u, j - 2);
    }
  }

  /** A well-paired text stays well paired from any position not preceded by a quote. */
  lemma {:induction false} WellPairedSuffix(t: string, i: int)
    requires WellPaired(t)
    requires 0 <= i <= |t|
    requires i == 0 || t[i - 1] != Quote
    ensures WellPaired(t[i..])
    decreases |t|
  {
    if i > 0 {
      if t[0] != Quote {
        assert t[1..][i - 1..] == t[i..];
        WellPairedSuffix(t[1..], i - 1);
      } else {
        assert i >= 2;
        assert t[2..][i - 2..] == t[i..];
        WellPairedSuffix(t[2..], i - 2);
      }
    }
  }

  /** In a well-paired text every maximal run of quotes has even length. */
  lemma WellPairedEvenRuns(t: string)
    requires WellPaired(t)
    ensures EvenQuoteRuns(t)
  {
    forall i, j | 0 <= i < j <= |t| && MaximalQuoteRun(t, i, j)
      ensures (j - i) % 2 == 0
    {
      WellPairedSuffix(t, i);
      var u := t[i..];
      forall k | 0 <= k < j - i
        ensures u[k] == Quote
      {
        assert u[k] == t[i + k];
      }
      WellPairedLeadingRun(u, j - i);
    }
  }

  /** The escaped text is safe inside a quoted literal: all of its quote runs are even. */
  lemma EscapeEvenRuns(s: string)
    ensures EvenQuoteRuns(Escape(s))
  {
    EscapeWellPaired(s);
    WellPairedEvenRuns(Escape(s));
  }
}

=== FILE: sql_query.dfy ===
/**
 The INSERT statement both ingest scripts send to the knowledge base, and a
 reader for standard SQL string literals (a quote inside a literal is written
 as two quotes). The main fact: the only literal of the statement holds the
 file content exactly, whatever quotes the content contains.
 */
module SqlQuery {
  import opened Wrappers
  import opened SqlEscape

  /** The statement text before the opening quote of the content literal, written as
      pieces that join to `"\nINSERT INTO prd_knowledge_base (content)\nSELECT "` so that
      each piece can be checked for quotes on its own. */
  const InsertHead: string := "\nINSERT " + "INTO " + "prd_knowledge_base " + "(content)\n" + "SELECT "

  /** The statement text after the closing quote of the content literal. */
  const InsertTail: string := " AS content;\n"

  /** A string literal read from SQL text: its value and the text after its closing quote. */
  datatype Lexeme = Lexeme(value: string, rest: string)

  /** The INSERT statement built around the escaped content. */
  function InsertQuery(content: string): (r: string)
    ensures |r| == |InsertHead| + |content| + CountQuotes(content) + 2 + |InsertTail|
  {
    EscapeLength(content);
    InsertHead + ([Quote] + (Escape(content) + ([Quote] + InsertTail)))
  }

  /** Puts `c` in front of the value of a literal read so far. */
  function Prepend(c: char, o: Option<Lexeme>): (r: Option<Lexeme>)
    ensures r.Some? <==> o.Some?
    ensures r.Some? ==> r.value.value == [c] + o.value.value && r.value.rest == o.value.rest
  {
    match o
    case None => None
    case Some(l) => Some(Lexeme([c] + l.value, l.rest))
  }

  /** Reads the body of a literal whose opening quote has already been consumed:
      `''` stands for one quote, a lone quote closes the literal, and a text that
      ends before a closing quote is an unterminated literal (`None`). */
  function ReadLiteral(t: string): (r: Option<Lexeme>)
    ensures r.Some? ==> |r.value.rest| < |t|
    decreases |t|
  {
    if t == [] then None
    else if t[0] != Quote then Prepend(t[0], ReadLiteral(t[1..]))
    else if |t| >= 2 && t[1] == Quote then Prepend(Quote, ReadLiteral(t[2..]))
    else Some(Lexeme([], t[1..]))
  }

  /** The first string literal of a statement, if any. */
  function FirstLiteral(q: string): (r: Option<Lexeme>)
    ensures Quote !in q ==> r == None
    decreases |q|
  {
    if q == [] then None
    else if q[0] == Quote then ReadLiteral(q[1..])
    else FirstLiteral(q[1..])
  }

  /** Reading an escaped text followed by a closing quote gives back the text, and
      stops right after that closing quote. */
  lemma {:induction false} ReadEscaped(s: string, closing: string)
    requires |closing| > 0 && closing[0] == Quote
    requires |closing| == 1 || closing[1] != Quote
    ensures ReadLiteral(Escape(s) + closing) == Some(Lexeme(s, closing[1..]))
    decreases |s|
  {
    if s == [] {
      assert Escape(s) + closing == closing;
    } else {
      var t := Escape(s[1..]) + closing;
      ReadEscaped(s[1..], closing);
      EscapeConsAppend(s, closing);
      ReadEscapedChar(s[0], t);
      assert [s[0]] + s[1..] == s;
    }
  }

  /** Regrouping the escaped text in front of a suffix. */
  lemma EscapeConsAppend(s: string, closing: string)
    requires s != []
    ensures Escape(s) + closing == EscapeChar(s[0]) + (Escape(s[1..]) + closing)
  {
    EscapeCons(s);
    AppendAssoc(EscapeChar(s[0]), Escape(s[1..]), closing);
  }

  /** Concatenation is associative. */
  lemma AppendAssoc(a: string, b: string, c: string)
    ensures (a + b) + c == a + (b + c)
  {
  }

  /** The escaped form of one character reads back as that character. */
  lemma ReadEscapedChar(c: char, tail: string)
    ensures ReadLiteral(EscapeChar(c) + tail) == Prepend(c, ReadLiteral(tail))
  {
    var t := EscapeChar(c) + tail;
    if c == Quote {
      assert t[0] == Quote && t[1] == Quote;
      assert t[2..] == tail;
    } else {
      assert t[0] == c;
      assert t[1..] == tail;
    }
  }

  /** Text without quotes in front of a statement does not change its first literal. */
  lemma {:induction false} FirstLiteralSkips(head: string, q: string)
    requires Quote !in head
    ensures FirstLiteral(head + q) == FirstLiteral(q)
    decreases |head|
  {
    if head != [] {
      assert (head + q)[0] == head[0];
      assert (head + q)[1..] == head[1..] + q;
      FirstLiteralSkips(head[1..], q);
    } else {
      assert head + q == q;
    }
  }

  /** The statement head holds no quote, so the content literal is the first literal. */
  lemma HeadHasNoQuote()
    ensures Quote !in InsertHead
  {
    assert Quote !in "\nINSERT ";
    assert Quote !in "INTO ";
    assert Quote !in "prd_knowledge_base ";
    assert Quote !in "(content)\n";
    assert Quote !in "SELECT ";
  }

  /** The statement tail holds no quote, so no second literal follows the content. */
  lemma TailHasNoQuote()
    ensures Quote !in InsertTail
  {
  }

  /** Any quote-free head followed by an escaped text in quotes: the first literal is the text. */
  lemma QuotedEscapeIsFirstLiteral(head: string, content: string, tail: string)
    requires Quote !in head
    requires tail == [] || tail[0] != Quote
    ensures FirstLiteral(head + ([Quote] + (Escape(content) + ([Quote] + tail)))) == Some(Lexeme(content, tail))
  {
    var closing := [Quote] + tail;
    var body := Escape(content) + closing;
    FirstLiteralSkips(head, [Quote] + body);
    assert ([Quote] + body)[1..] == body;
    ReadEscaped(content, closing);
    assert closing[1..] == tail;
  }

  /** The INSERT statement carries exactly one literal, and its value is the content:
      no quote in the content can close the literal early. */
  lemma InsertQueryCarriesContent(content: string)
    ensures FirstLiteral(InsertQuery(content)) == Some(Lexeme(content, InsertTail))
    ensures FirstLiteral(InsertTail) == None
  {
    HeadHasNoQuote();
    TailHasNoQuote();
    QuotedEscapeIsFirstLiteral(InsertHead, content, InsertTail);
  }

  /** The reader inverts the escape: whatever it reads was written as the escape of the
      value it returns, then a closing quote, then the rest. */
  lemma {:induction false} ReadLiteralInverse(t: string, v: string, rest: string)
    requires ReadLiteral(t) == Some(Lexeme(v, rest))
    ensures t == Escape(v) + ([Quote] + rest)
    decreases |t|
  {
    if t[0] != Quote {
      var inner := ReadLiteral(t[1..]);
      assert inner.Some? && v == [t[0]] + inner.value.value && rest == inner.value.rest;
      ReadLiteralInverse(t[1..], inner.value.value, rest);
      EscapeCons(v);
      assert v[0] == t[0] && v[1..] == inner.value.value;
      AppendAssoc([t[0]], Escape(inner.value.value), [Quote] + rest);
      assert t == [t[0]] + t[1..];
    } else if |t| >= 2 && t[1] == Quote {
      var inner := ReadLiteral(t[2..]);
      assert inner.Some? && v == [Quote] + inner.value.value && rest == inner.value.rest;
      ReadLiteralInverse(t[2..], inner.value.value, rest);
      EscapeCons(v);
      assert v[0] == Quote && v[1..] == inner.value.value;
      AppendAssoc([Quote, Quote], Escape(inner.value.value), [Quote] + rest);
      assert t == [Quote, Quote] + t[2..];
    } else {
      assert v == [] && rest == t[1..];
      assert t == [Quote] + t[1..];
    }
  }

  /** Placing a content between quotes without escaping it reads back as that content
      exactly when the content holds no quote: for every content with a quote (`it's`, say)
      the literal ends early or comes out different, so the escape is needed. */
  lemma UnescapedLiteralReadsBack(s: string, tail: string)
    requires tail == [] || tail[0] != Quote
    ensures ReadLiteral(s + ([Quote] + tail)) == Some(Lexeme(s, tail)) <==> Quote !in s
  {
    if Quote !in s {
      EscapeNoQuote(s);
      ReadEscaped(s, [Quote] + tail);
      assert ([Quote] + tail)[1..] == tail;
    } else if ReadLiteral(s + ([Quote] + tail)) == Some(Lexeme(s, tail)) {
      ReadLiteralInverse(s + ([Quote] + tail), s, tail);
      assert |Escape(s)| == |s|;
      EscapeLength(s);
      CountQuotesZero(s);
      assert false;
    }
  }
}

=== FILE: wrappers.dfy ===
/** An optional value, used across the model. */
module Wrappers {

  /** A value that may be absent. */
  datatype Option<+T> = None | Some(value: T)
}
